=== FILE: README.md ===
# changeme HTTP fingerprinting, modelled in Dafny

This project models the decision layer of changeme's HTTP scanner: the
`HttpFingerprint` class in `changeme/scanners/http_fingerprint.py`. The layer
has four parts, and the model proves properties of each:

- **Probe builder** (`build_fingerprints`). It crosses the scan targets with the
  credential-signature catalog and each entry's fingerprint URLs. One quirk is
  modelled exactly: the `host:port` strip rebinds the loop variable, so it
  "sticks" for the rest of that target.
- **Signature predicate** (`ismatch`). It checks substrings of the realm and
  `Server` headers, then runs the body patterns with last-pattern-wins
  semantics.
- **Token and cookie extraction** (`_get_csrf_token`, `_get_session_id`).
- **Dispatch** (`fingerprint` after its GET). It walks the whole catalog in
  order and gates each matching entry on its CSRF token and session cookie. A
  failed gate returns `None` for the whole probe. Otherwise it builds one login
  attempt per (credential pair, auth URL), with the scanner class chosen by
  `auth.type`.

The files are:

- `wrappers.dfy`: `Option`/`Result` and the first-index search `Seqs.FirstWhere`.
- `pytext.dfy`: the Python string semantics the code relies on. This covers `in`
  on strings, `str.split`, `str(int)` and `int(str)`.
- `catalog.dfy`: catalog entries, the run configuration, and the abstract HTTP
  exchange.
- `probes.dfy`: the probe value, `__eq__` and `full_URL`.
- `builder.dfy`: `build_fingerprints`, a declarative reference for it, and the
  theorem that the two agree.
- `matching.dfy`: `ismatch`.
- `extraction.dfy`: the CSRF-token and session-cookie lookups.
- `dispatch.dfy`, `dispatch_facts.dfy`: the post-GET loop and what it promises.

Whatever `http_fingerprint.py` calls outside itself is a parameter:

- the network: `network: Request -> GetOutcome`, where a connection-level
  exception is `ConnectionFailed`;
- `re.search`: `matches(pattern, text)`;
- `HTTPGetScanner.get_base_url`: `baseUrl`.

The four scanner classes become the `Dispatch.Variant` datatype, and a netaddr
`IPAddress` target becomes the `Probes.IpAddr` variant.

The HTML lookup `//input[@name=N]/@value` is a map from an input name to the
first `value` carried by an input of that name. It is `None` when lxml cannot
parse the body. Python's `None` return is `Outcome.NoneReturned`, a scanner
list is `Scanners(...)`, and an exception escaping `fingerprint` is `Raised(...)`.

## Model

| member | source | states |
|---|---|---|
| PyText.Split | changeme/scanners/http_fingerprint.py:162-167 | `target.split(":")` yields at least one field. No field contains the separator. There is exactly one field iff the string has no colon. Joining the fields with the separator gives back the string. |
| PyText.SplitJoin | changeme/scanners/http_fingerprint.py:162-167 | Splitting undoes joining whenever no field contains the separator, so the fields of `host:port` are well defined. |
| PyText.IntToString | changeme/scanners/http_fingerprint.py:42 | `str(port)` is a non-empty string of decimal digits with no leading zero (except `"0"` itself), with a leading `-` and then a nonzero digit for negative ports. |
| PyText.CanonicalIsNatToString | changeme/scanners/http_fingerprint.py:42 | Every digit string without a leading zero is `str()` of its own value, so `str(n)` is the one canonical rendering of `n` (never, say, `080` for 80). |
| PyText.PyIntOfIntToString | changeme/scanners/http_fingerprint.py:162 | `int(str(n)) == n`: `int()` reads a rendered port back as the same number. |
| Probes.PortText | changeme/scanners/http_fingerprint.py:162 | The port text is `target.split(":")[1]`: it follows the first field and its colon in the target, contains no colon itself, and is followed by the end of the target or by another colon. |
| Probes.Strip | changeme/scanners/http_fingerprint.py:165-167 | The stripped target is a string target without a port. Followed by `:`, it is a prefix of the original target. |
| Probes.ProbeEq | changeme/scanners/http_fingerprint.py:36-38 | `__eq__` never returns `False`. It returns `True` exactly when target, url, port, ssl, headers and cookies agree, and `None` otherwise. |
| Probes.ProbeEqIsEquivalence | changeme/scanners/http_fingerprint.py:36-38 | The truthiness of `__eq__` is reflexive, symmetric and transitive. |
| Probes.ProbeEqIgnoresContext | changeme/scanners/http_fingerprint.py:36-38 | Equality ignores the run configuration and the catalog a probe carries. |
| Probes.FullUrl | changeme/scanners/http_fingerprint.py:40-42 | The URL starts with `https://` iff `ssl` is `True`, and with `http://` otherwise (also when `ssl` is absent). It ends with the probe's path. |
| Probes.FullUrlLayout | changeme/scanners/http_fingerprint.py:40-42 | For every probe, colons or not, the URL is laid out in order with nothing between the parts: scheme and `://`, the target text, `:` and the decimal port, then the path. |
| Probes.FullUrlFields | changeme/scanners/http_fingerprint.py:40-42 | When target and path are colon-free, splitting the URL at colons gives back the scheme, `//` plus the target, and the decimal port followed by the path. |
| Probes.SameUrlSameScheme | changeme/scanners/http_fingerprint.py:40-42 | Two probes with the same URL agree on whether they use TLS. |
| Probes.EqualProbesIssueSameRequest | changeme/scanners/http_fingerprint.py:36-57 | `__eq__`-equal probes that share a configuration issue the identical GET. |
| Builder.ScanUrls | changeme/scanners/http_fingerprint.py:160-180 | The URL loop for one entry, with four cases. A portless target is never rebound. A `host:port` target whose port differs from `default_port` (or an entry with no URLs) yields nothing and keeps the target. A matching port leaves the target rebound to the bare host. |
| Builder.ScanFromOpeningEntry | changeme/scanners/http_fingerprint.py:162-167 | At the first http entry that has at least one fingerprint URL and whose default port equals `port`, the target is stripped. That entry and all later ones are then probed on the bare host with no port filter. |
| Builder.ScanPastClosedEntry | changeme/scanners/http_fingerprint.py:157-164 | A non-http entry, an entry with no URLs, or one whose default port differs yields no probe and leaves the target unchanged. |
| Builder.ScanIsStickyStrip | changeme/scanners/http_fingerprint.py:155-180 | The Python loops equal a declarative reference. Portless targets and addresses get every probe. A `host:port` target gets nothing before the first http entry that has at least one fingerprint URL and whose default port equals `port`; an http entry with an empty URL list never strips, since the port test runs inside the URL loop. From that entry on, it gets every probe of every entry on the bare host, whatever the later entries' ports are. |
| Builder.BuildMatchesReference | changeme/scanners/http_fingerprint.py:150-182 | `build_fingerprints` is the per-target reference result, concatenated in target order. |
| BuilderFacts.BuildProbesCarryCatalog | changeme/scanners/http_fingerprint.py:155-180 | Every probe comes from one http entry of the catalog and one of its fingerprint URLs. It takes that entry's port, TLS flag, headers and cookie, and carries the configuration and the whole catalog. Its target is a given target or that target stripped. An address target is never altered. |
| BuilderFacts.HostPortTarget | changeme/scanners/http_fingerprint.py:162-167 | `host:str(n)` splits into the bare host and the port text, and `int()` reads the port text back as `n`. |
| BuilderFacts.ObservedPortSelectsEntry | changeme/scanners/http_fingerprint.py:162-172 | Take a `host:n` target and an http entry with one URL. If the default port is `n`, there is one probe on the bare host. Otherwise there is none. |
| BuilderFacts.ObservedPortExample | changeme/scanners/http_fingerprint.py:162-172 | `10.0.0.5:8080` against a port-8080 entry gives one probe on `10.0.0.5`, port 8080. Against a port-80 entry it gives none. |
| Matching.LastPatternWins | changeme/scanners/http_fingerprint.py:138-146 | After a non-empty body list, the flag is exactly whether the last pattern matched, whatever it was before. |
| Matching.IsMatch | changeme/scanners/http_fingerprint.py:123-148 | Non-http entries never match. Without a body list (absent or empty), the result is realm hit OR server hit. With one, the last pattern alone decides. |
| Matching.ThreePatternExample | changeme/scanners/http_fingerprint.py:138-146 | Patterns [match, no match, match] give a match. |
| Matching.FailingLastPatternOverridesEverything | changeme/scanners/http_fingerprint.py:124-148 | A realm hit, a server hit and a matching first pattern are all lost when the last pattern fails. |
| Matching.HeaderHitSuffices | changeme/scanners/http_fingerprint.py:127-136 | Without a body list, a realm hit alone or a server hit alone gives a match. |
| Matching.MissingHeaderNeverHits | changeme/scanners/http_fingerprint.py:127-134 | A missing `WWW-Authenticate` header, or an absent or empty realm, never gives a realm hit. A missing or empty `Server` header, or an absent or empty server string, never gives a server hit. |
| Extraction.CsrfToken | changeme/scanners/http_fingerprint.py:91-105 | With no CSRF name configured, the result is `False`. With one: an unparsable body raises; otherwise the result is the first matching input's value, or `False` when there is no such input. |
| Extraction.SessionId | changeme/scanners/http_fingerprint.py:107-121 | The result is the one-entry mapping `{name: cookie value}` exactly when a name is configured and the response set that cookie. Otherwise it is `False`. |
| Extraction.SessionCookieExample | changeme/scanners/http_fingerprint.py:107-118 | The cookie jar `{"session": "abc123"}` with `sessionid: session` gives `{"session": "abc123"}`. |
| Dispatch.PairAttemptsLayout | changeme/scanners/http_fingerprint.py:76-87 | For one pair, a known `auth.type` builds one attempt per auth URL, in URL order, to `get_base_url(res.url) + path`. Any other type builds nothing. |
| Dispatch.EntryAttemptsUnknownKind | changeme/scanners/http_fingerprint.py:80-87 | An `auth.type` outside get/post/raw_post/basic_auth builds no attempt. |
| Dispatch.EntryAttemptsCount | changeme/scanners/http_fingerprint.py:75-87 | A known `auth.type` builds exactly (number of pairs) × (number of auth URLs) attempts. |
| Dispatch.EntryAttemptAt | changeme/scanners/http_fingerprint.py:75-87 | Pairs form the outer loop and URLs the inner one. The attempt for pair `i` and URL `j` sits at index `i * |urls| + j`. |
| Dispatch.EntryStep | changeme/scanners/http_fingerprint.py:63-87 | A non-matching entry is skipped. A matching entry goes through the CSRF parse (which may raise), then the CSRF gate (token configured but missing or empty), then the session gate (cookie configured but absent); a failed gate aborts. A raw_post entry missing a `raw` body raises `KeyError`. Otherwise the entry emits its attempts. |
| Dispatch.Fingerprint | changeme/scanners/http_fingerprint.py:44-60 | A connection-level exception on the GET returns `None`. Nothing propagates. |
| Dispatch.DispatchStopsAtFirstFailure | changeme/scanners/http_fingerprint.py:62-89 | If no entry stops the loop, the result is the attempts of every matching entry in catalog order. Otherwise the first stopping entry alone decides: `None` for a failed gate, the exception for a raise. Attempts built before it are discarded. |
| Dispatch.DispatchIsRun | changeme/scanners/http_fingerprint.py:62-89 | Each entry's decision depends on that entry and the one response alone. So the loop equals a run over the per-entry decisions taken in catalog order. |
| Dispatch.RunStopsAtFirstFailure | changeme/scanners/http_fingerprint.py:62-89 | A run over decisions returns everything emitted, in order, when nothing stops it. Otherwise it returns exactly what the first stopping decision says. |
| DispatchFacts.AttemptsComeFromPassingEntries | changeme/scanners/http_fingerprint.py:62-89 | Every returned attempt comes from a catalog entry that matched and passed both gates. It carries the session jar (not the extracted session mapping), the configuration, a base-URL-plus-auth-path URL and one of the entry's pairs. Its scanner class is the one `auth.type` names. Post and raw-post carry the page token; raw-post also carries the pair's raw body. |
| DispatchFacts.GateFailureDiscardsEverything | changeme/scanners/http_fingerprint.py:65-73 | Once some entry fails a gate, with no earlier entry having stopped the loop, `fingerprint` returns `None`. This drops earlier entries' attempts and skips later entries. |
| DispatchFacts.CsrfAbortDropsLaterMatch | changeme/scanners/http_fingerprint.py:62-73 | Two entries both match. The first needs a CSRF token the page lacks; the second needs nothing. The result is `None`, although the second entry alone would build attempts. |
| DispatchFacts.NoMatchYieldsEmptyList | changeme/scanners/http_fingerprint.py:62-89 | A response no entry matches yields the empty list, which is distinct from `None`. |
| DispatchFacts.TwoPairsOneUrl | changeme/scanners/http_fingerprint.py:75-81 | A get-type entry with two pairs and one auth URL builds exactly two get attempts. They follow pair order, with the same URL and the same cookie jar. |
| DispatchFacts.EqualProbesSameOutcome | changeme/scanners/http_fingerprint.py:36-60 | `__eq__`-equal probes with the same catalog and configuration return the same result for any network answer. |
| DispatchFacts.BuiltProbesCoalesce | changeme/scanners/http_fingerprint.py:150-182 | Any two `__eq__`-equal probes from one `build_fingerprints` call are interchangeable, so deduplicating them is safe. |

Behaviour of the code that is easy to get wrong:

- A connection failure makes `fingerprint` return `None`, not an empty list
  (line 60). `Dispatch.Fingerprint` returns `NoneReturned`.
- A failed gate also returns `None` (lines 68 and 73).
- A body lxml cannot parse is not "token not found". `html.fromstring` runs
  outside the `try` (line 94), so the exception escapes `fingerprint`; this is
  `Raised(HtmlParseError)`.
- The port filter does not skip a (target, entry) pair. It skips per URL, and
  after the first matching port the stripped target is no longer filtered
  (lines 162-167). `Builder.ScanIsStickyStrip` states this.
- An input whose `value` is the empty string fails the CSRF gate, because the
  gate tests truthiness (line 66). An empty session cookie passes its gate,
  because the one-entry dict is truthy (line 71).

## Left out

- The HTTP GET itself (requests `Session`, timeout, proxy, `verify=False`, TLS, redirects). It is the `network` parameter. Any exception it raises, which the code catches with `except Exception`, is `ConnectionFailed`.
- HTML parsing and XPath evaluation. These are the `inputs` map, and quoting of the CSRF name inside the XPath is not modelled.
- The regular-expression engine. It is the `matches` parameter, which is total. An invalid body pattern, on which `re.search` raises `re.error` out of `ismatch` and `fingerprint` (lines 63 and 141), is not modelled.
- `HTTPGetScanner.get_base_url` and the four scanner classes. These live in other files, which are not part of this model. `get_base_url` is the `baseUrl` parameter and the classes are the `Variant` datatype. Their execution is out of scope.
- Logging. It has no effect on any returned value.
- Pickling (`__getstate__`/`__setstate__`). `__getstate__` sets `logger` to `None` on the live object's own `__dict__` (lines 24-27). A probe that is used after being pickled therefore raises `AttributeError` at its next log call (line 59, 78, or a log call inside `ismatch`). The model assumes a probe is not used after it has been pickled.
- `__hash__`. It hashes `str()` of the header and cookie dicts, so equal probes need not hash alike. No hash property is claimed.
- netaddr. An `IPAddress` target is the `IpAddr` variant, kept as its text. Comparisons between an address and a string are not modelled.
- `int()`. It is modelled for ASCII (surrounding whitespace, sign, `_` digit groups). Non-ASCII digits and whitespace are not modelled.
- Other failures of `build_fingerprints`: `int()` raising, or a missing `default_port` read by the port filter. These are the precondition `Builder.Evaluable`, which requires exactly the conversions the loop performs to succeed. A missing `fingerprint.url`, `auth` key or pair `username`/`password` is excluded by the datatypes.
- Catalog values of unexpected Python types (a string `default_port`, a body given as a bare string). These are not modelled.
- Case-insensitive header lookup and the merging of repeated headers. Each header is one optional string.
- The cookie jars are plain maps. `CookieConflictError` for duplicate cookie names is not modelled. The session jar is a value, whereas the code shares one mutable jar object among all attempts.
- `__eq__` against an object without the probe fields (which raises). It is not modelled.

=== FILE: builder.dfy ===
/**
 * `build_fingerprints`: crosses targets with catalog entries and their
 * fingerprint URLs. `ScanUrls`/`ScanEntries` follow the Python loops,
 * threading the loop variable `target`, which the port strip rebinds for the
 * rest of that target's iteration. `TargetProbes` states the same result
 * declaratively, and `ScanIsStickyStrip` proves the two agree.
 */
module Builder {
  import opened Wrappers
  import opened Seqs
  import opened PyText
  import opened Catalog
  import opened Probes

  /** The probe built for one (target, entry, url) triple; it carries the whole catalog. */
  function MakeProbe(t: Target, url: string, c: Entry, config: Config, creds: seq<Entry>): Probe
  {
    Probe(t, url, PortOf(c), c.ssl, c.fingerprint.headers, c.fingerprint.cookie, config, creds)
  }

  /** An http entry with at least one fingerprint URL: the only kind whose port check runs. */
  predicate Scanned(c: Entry) {
    IsHttp(c) && |c.fingerprint.urls| > 0
  }

  /**
   * The `int()` conversions of the port filter succeed for as long as they are
   * evaluated: at every scanned entry up to and including the first one whose
   * default port equals the target's port.
   */
  predicate PortsDefined(text: string, cs: seq<Entry>)
    decreases |cs|
  {
    if |cs| == 0 then true
    else if Scanned(cs[0]) then
      PyInt(text).Some? && cs[0].defaultPort.Some? &&
      (PyInt(text).value == cs[0].defaultPort.value || PortsDefined(text, cs[1..]))
    else PortsDefined(text, cs[1..])
  }

  /** `build_fingerprints` raises nothing for this target. */
  predicate Evaluable(t: Target, cs: seq<Entry>) {
    HasPort(t) ==> PortsDefined(PortText(t), cs)
  }

  /** The filter `int(target.split(":")[1]) == int(c.get('default_port'))`. */
  predicate PortAgrees(t: Target, c: Entry)
    requires HasPort(t) && PyInt(PortText(t)).Some? && c.defaultPort.Some?
  {
    PyInt(PortText(t)).value == c.defaultPort.value
  }

  /**
   * The inner `for url in fp.get('url')` loop for one http entry; returns the
   * probes built and the value `target` holds afterwards.
   */
  function ScanUrls(t: Target, c: Entry, urls: seq<string>, config: Config, creds: seq<Entry>)
    : (out: (seq<Probe>, Target))
    requires HasPort(t) && |urls| > 0 ==> PyInt(PortText(t)).Some? && c.defaultPort.Some?
    ensures !HasPort(t) ==> out.1 == t
    ensures HasPort(t) && (|urls| == 0 || !PortAgrees(t, c)) ==> out == ([], t)
    ensures HasPort(t) && |urls| > 0 && PortAgrees(t, c) ==> out.1 == Strip(t)
    decreases |urls|
  {
    if |urls| == 0 then ([], t)
    else if HasPort(t) && !PortAgrees(t, c) then
      ScanUrls(t, c, urls[1..], config, creds)
    else
      var t' := if HasPort(t) then Strip(t) else t;
      var rest := ScanUrls(t', c, urls[1..], config, creds);
      ([MakeProbe(t', urls[0], c, config, creds)] + rest.0, rest.1)
  }

  /** The middle `for c in creds` loop for one target. */
  function ScanEntries(t: Target, cs: seq<Entry>, config: Config, creds: seq<Entry>): seq<Probe>
    requires Evaluable(t, cs)
    decreases |cs|
  {
    if |cs| == 0 then []
    else if !IsHttp(cs[0]) then ScanEntries(t, cs[1..], config, creds)
    else
      var out := ScanUrls(t, cs[0], cs[0].fingerprint.urls, config, creds);
      out.0 + ScanEntries(out.1, cs[1..], config, creds)
  }

  /** `build_fingerprints(targets, creds, config)`: the outer `for target in targets` loop. */
  function BuildFingerprints(targets: seq<Target>, creds: seq<Entry>, config: Config): seq<Probe>
    requires forall t :: t in targets ==> Evaluable(t, creds)
    decreases |targets|
  {
    if |targets| == 0 then []
    else ScanEntries(targets[0], creds, config, creds) + BuildFingerprints(targets[1..], creds, config)
  }

  // ---------------------------------------------------------------------------
  // Declarative reference
  // ---------------------------------------------------------------------------

  /** One probe per fingerprint URL of an http entry, in URL order; none for other protocols. */
  function EntryProbes(t: Target, c: Entry, config: Config, creds: seq<Entry>): seq<Probe>
  {
    if IsHttp(c) then
      seq(|c.fingerprint.urls|, i requires 0 <= i < |c.fingerprint.urls| =>
        MakeProbe(t, c.fingerprint.urls[i], c, config, creds))
    else []
  }

  /** The unfiltered cross product for a fixed target: entries in catalog order. */
  function AllProbes(t: Target, cs: seq<Entry>, config: Config, creds: seq<Entry>): seq<Probe>
    decreases |cs|
  {
    if |cs| == 0 then [] else EntryProbes(t, cs[0], config, creds) + AllProbes(t, cs[1..], config, creds)
  }

  /** A scanned entry whose default port is the one written in the target. */
  predicate Opens(text: string, c: Entry) {
    Scanned(c) && PyInt(text).Some? && c.defaultPort == Some(PyInt(text).value)
  }

  /**
   * What a target yields. A portless target (or an address) gets every probe.
   * A `host:port` target gets nothing before the first scanned entry whose
   * default port is `port`; from that entry on, every probe of every entry,
   * for the bare `host`, whatever the later entries' ports are.
   */
  function TargetProbes(t: Target, cs: seq<Entry>, config: Config, creds: seq<Entry>): seq<Probe> {
    if !HasPort(t) then AllProbes(t, cs, config, creds)
    else
      match FirstWhere(cs, c => Opens(PortText(t), c))
      case None => []
      case Some(k) => AllProbes(Strip(t), cs[k..], config, creds)
  }

  // ---------------------------------------------------------------------------
  // The loops agree with the reference
  // ---------------------------------------------------------------------------

  /** Without a port nothing is filtered and the target is never rebound. */
  lemma {:induction false} ScanUrlsPortless(t: Target, c: Entry, urls: seq<string>, config: Config, creds: seq<Entry>)
    requires !HasPort(t)
    ensures ScanUrls(t, c, urls, config, creds).0
         == seq(|urls|, i requires 0 <= i < |urls| => MakeProbe(t, urls[i], c, config, creds))
    decreases |urls|
  {
    if |urls| > 0 {
      ScanUrlsPortless(t, c, urls[1..], config, creds);
    }
  }

  lemma {:induction false} ScanEntriesPortless(t: Target, cs: seq<Entry>, config: Config, creds: seq<Entry>)
    requires !HasPort(t)
    ensures ScanEntries(t, cs, config, creds) == AllProbes(t, cs, config, creds)
    decreases |cs|
  {
    if |cs| > 0 {
      if IsHttp(cs[0]) {
        ScanUrlsPortless(t, cs[0], cs[0].fingerprint.urls, config, creds);
      }
      ScanEntriesPortless(t, cs[1..], config, creds);
    }
  }

  /** The URL loop of an entry whose port matches: every URL is probed on the bare host. */
  lemma ScanUrlsOpening(t: Target, c: Entry, config: Config, creds: seq<Entry>)
    requires HasPort(t) && Opens(PortText(t), c)
    ensures ScanUrls(t, c, c.fingerprint.urls, config, creds) == (EntryProbes(Strip(t), c, config, creds), Strip(t))
  {
    var h := Strip(t);
    var urls := c.fingerprint.urls;
    var rest := ScanUrls(h, c, urls[1..], config, creds);
    assert ScanUrls(t, c, urls, config, creds) == ([MakeProbe(h, urls[0], c, config, creds)] + rest.0, rest.1);
    ScanUrlsPortless(h, c, urls[1..], config, creds);
    var ps := EntryProbes(h, c, config, creds);
    assert [MakeProbe(h, urls[0], c, config, creds)] + rest.0 == ps by {
      assert forall i :: 1 <= i < |urls| ==> rest.0[i - 1] == ps[i];
    }
  }

  /** An entry whose port matches strips the target and is followed by unfiltered probing. */
  lemma ScanFromOpeningEntry(t: Target, cs: seq<Entry>, config: Config, creds: seq<Entry>)
    requires HasPort(t) && |cs| > 0 && Opens(PortText(t), cs[0])
    ensures Evaluable(t, cs)
    ensures ScanEntries(t, cs, config, creds) == AllProbes(Strip(t), cs, config, creds)
  {
    ScanUrlsOpening(t, cs[0], config, creds);
    ScanEntriesPortless(Strip(t), cs[1..], config, creds);
  }

  /** An entry whose port does not match (or that is not scanned) yields nothing and leaves the target alone. */
  lemma ScanPastClosedEntry(t: Target, cs: seq<Entry>, config: Config, creds: seq<Entry>)
    requires HasPort(t) && |cs| > 0 && !Opens(PortText(t), cs[0]) && Evaluable(t, cs)
    ensures Evaluable(t, cs[1..])
    ensures ScanEntries(t, cs, config, creds) == ScanEntries(t, cs[1..], config, creds)
  {
    if Scanned(cs[0]) {
      assert !PortAgrees(t, cs[0]);
    }
  }

  /**
   * The port strip sticks: the Python loops yield exactly `TargetProbes`.
   * Entries before the first one whose port matches contribute nothing;
   * that entry and every later one are probed on the bare host.
   */
  lemma {:induction false} ScanIsStickyStrip(t: Target, cs: seq<Entry>, config: Config, creds: seq<Entry>)
    requires Evaluable(t, cs)
    ensures ScanEntries(t, cs, config, creds) == TargetProbes(t, cs, config, creds)
    decreases |cs|
  {
    if !HasPort(t) {
      ScanEntriesPortless(t, cs, config, creds);
    } else if |cs| > 0 {
      var p := c => Opens(PortText(t), c);
      if Opens(PortText(t), cs[0]) {
        ScanFromOpeningEntry(t, cs, config, creds);
        assert FirstWhere(cs, p) == Some(0);
        assert cs[0..] == cs;
      } else {
        ScanPastClosedEntry(t, cs, config, creds);
        FirstWhereTail(cs, p);
        ScanIsStickyStrip(t, cs[1..], config, creds);
        match FirstWhere(cs[1..], p)
        case None =>
        case Some(k) =>
          assert cs[1..][k..] == cs[k + 1..];
      }
    }
  }

  /** The probe list of several targets, in target order, per the reference. */
  function AllTargetsProbes(targets: seq<Target>, creds: seq<Entry>, config: Config): seq<Probe>
    decreases |targets|
  {
    if |targets| == 0 then []
    else TargetProbes(targets[0], creds, config, creds) + AllTargetsProbes(targets[1..], creds, config)
  }

  lemma {:induction false} BuildMatchesReference(targets: seq<Target>, creds: seq<Entry>, config: Config)
    requires forall t :: t in targets ==> Evaluable(t, creds)
    ensures BuildFingerprints(targets, creds, config) == AllTargetsProbes(targets, creds, config)
    decreases |targets|
  {
    if |targets| > 0 {
      ScanIsStickyStrip(targets[0], creds, config, creds);
      BuildMatchesReference(targets[1..], creds, config);
    }
  }
}

/** What every probe of `build_fingerprints` carries, and the observed-port examples. */
module BuilderFacts {
  import opened Wrappers
  import opened Seqs
  import opened PyText
  import opened Catalog
  import opened Probes
  import opened Builder

  /** The probe `p` is the one built from entry `c` for its own target and URL. */
  predicate BuiltFrom(p: Probe, c: Entry, config: Config, creds: seq<Entry>) {
    IsHttp(c) && p.url in c.fingerprint.urls && p == MakeProbe(p.target, p.url, c, config, creds)
  }

  lemma {:induction false} AllProbesBuiltFrom(t: Target, cs: seq<Entry>, config: Config, creds: seq<Entry>)
    ensures forall p :: p in AllProbes(t, cs, config, creds) ==>
              p.target == t && exists c :: c in cs && BuiltFrom(p, c, config, creds)
    decreases |cs|
  {
    if |cs| > 0 {
      AllProbesBuiltFrom(t, cs[1..], config, creds);
      forall p | p in AllProbes(t, cs, config, creds)
        ensures p.target == t && exists c :: c in cs && BuiltFrom(p, c, config, creds)
      {
        var head := EntryProbes(t, cs[0], config, creds);
        if p in head {
          var i :| 0 <= i < |head| && head[i] == p;
          assert BuiltFrom(p, cs[0], config, creds);
        } else {
          var c :| c in cs[1..] && BuiltFrom(p, c, config, creds);
          assert c in cs;
        }
      }
    }
  }

  /**
   * Every probe of `build_fingerprints` comes from one http entry and one of its
   * fingerprint URLs, takes that entry's port (80 by default), TLS flag, headers
   * and cookies, and carries the run configuration and the whole catalog.
   * Its target is the target it was built for, or that target with the port
   * stripped; an address target is never changed.
   */
  lemma {:induction false} BuildProbesCarryCatalog(targets: seq<Target>, creds: seq<Entry>, config: Config)
    requires forall t :: t in targets ==> Evaluable(t, creds)
    ensures forall p :: p in BuildFingerprints(targets, creds, config) ==>
              p.creds == creds && p.config == config &&
              (exists c :: c in creds && BuiltFrom(p, c, config, creds)) &&
              (exists t :: t in targets && (p.target == t || (HasPort(t) && p.target == Strip(t)))) &&
              (p.target.IpAddr? ==> p.target in targets)
    decreases |targets|
  {
    BuildMatchesReference(targets, creds, config);
    if |targets| > 0 {
      var t := targets[0];
      BuildProbesCarryCatalog(targets[1..], creds, config);
      BuildMatchesReference(targets[1..], creds, config);
      forall p | p in TargetProbes(t, creds, config, creds)
        ensures p.creds == creds && p.config == config
        ensures exists c :: c in creds && BuiltFrom(p, c, config, creds)
        ensures p.target == t || (HasPort(t) && p.target == Strip(t))
      {
        if !HasPort(t) {
          AllProbesBuiltFrom(t, creds, config, creds);
        } else {
          var k := FirstWhere(creds, c => Opens(PortText(t), c)).value;
          AllProbesBuiltFrom(Strip(t), creds[k..], config, creds);
          var c :| c in creds[k..] && BuiltFrom(p, c, config, creds);
          assert c in creds;
        }
      }
      forall p | p in BuildFingerprints(targets, creds, config)
        ensures p.creds == creds && p.config == config
        ensures exists c :: c in creds && BuiltFrom(p, c, config, creds)
        ensures exists t' :: t' in targets && (p.target == t' || (HasPort(t') && p.target == Strip(t')))
        ensures p.target.IpAddr? ==> p.target in targets
      {
        if p in TargetProbes(t, creds, config, creds) {
          assert t in targets;
        } else {
          assert p in BuildFingerprints(targets[1..], creds, config);
          var t' :| t' in targets[1..] && (p.target == t' || (HasPort(t') && p.target == Strip(t')));
          assert t' in targets;
          assert p.target.IpAddr? ==> p.target in targets[1..];
        }
      }
    }
  }

  /**
   * A `host:port` target against one http entry with one fingerprint URL: when
   * the entry's default port is the observed port, one probe on the bare host
   * at that port; otherwise no probe at all.
   */
  lemma ObservedPortSelectsEntry(host: string, port: int, c: Entry, config: Config)
    requires ':' !in host
    requires IsHttp(c) && |c.fingerprint.urls| == 1 && c.defaultPort.Some?
    ensures var t := HostSpec(host + ":" + IntToString(port));
            Evaluable(t, [c]) &&
            BuildFingerprints([t], [c], config)
              == if c.defaultPort.value == port
                 then [MakeProbe(HostSpec(host), c.fingerprint.urls[0], c, config, [c])]
                 else []
  {
    var t := HostSpec(host + ":" + IntToString(port));
    HostPortTarget(host, port);
    assert Evaluable(t, [c]);
    BuildMatchesReference([t], [c], config);
    ScanIsStickyStrip(t, [c], config, [c]);
    var ps := EntryProbes(HostSpec(host), c, config, [c]);
    assert AllProbes(HostSpec(host), [c], config, [c]) == ps;
    assert [c][0..] == [c];
  }

  /** `host:port` splits into the bare host and the decimal port, which `int()` reads back. */
  lemma HostPortTarget(host: string, port: int)
    requires ':' !in host
    ensures var t := HostSpec(host + ":" + IntToString(port));
            HasPort(t) && PortText(t) == IntToString(port) && Strip(t) == HostSpec(host) &&
            PyInt(PortText(t)) == Some(port)
  {
    var t := HostSpec(host + ":" + IntToString(port));
    var digits := IntToString(port);
    assert ':' !in digits by {
      assert forall i :: 0 <= i < |digits| ==> digits[i] != ':';
    }
    SplitFirstField(host, ':', digits);
    SplitNoSeparator(digits, ':');
    assert Split(t.spec, ':') == [host, digits];
    PyIntOfIntToString(port);
  }

  /** The concrete case: `10.0.0.5:8080` probes port 8080 on `10.0.0.5`, and nothing for port 80 entries. */
  lemma ObservedPortExample(c: Entry, config: Config)
    requires IsHttp(c) && |c.fingerprint.urls| == 1 && c.defaultPort.Some?
    requires c.defaultPort.value == 8080 || c.defaultPort.value == 80
    ensures var t := HostSpec("10.0.0.5:8080");
            Evaluable(t, [c]) &&
            BuildFingerprints([t], [c], config)
              == if c.defaultPort.value == 8080
                 then [Probe(HostSpec("10.0.0.5"), c.fingerprint.urls[0], 8080, c.ssl,
                             c.fingerprint.headers, c.fingerprint.cookie, config, [c])]
                 else []
  {
    assert NatToString(8) == "8";
    assert NatToString(80) == "80";
    assert NatToString(808) == "808";
    assert IntToString(8080) == "8080";
    assert "10.0.0.5" + ":" + IntToString(8080) == "10.0.0.5:8080";
    ObservedPortSelectsEntry("10.0.0.5", 8080, c, config);
  }
}

=== FILE: catalog.dfy ===
/**
 * A credential-signature catalog entry, as the fingerprinting code reads it.
 * Keys the code reads with `dict.get` are `Option`s; keys it indexes directly
 * (`cred['auth']['url']`, `pair['username']`, ...) are plain fields.
 */
module Catalog {
  import opened Wrappers

  /** A Python dict of strings (headers, cookies, proxies). */
  type Dict = map<string, string>

  /** The run configuration a probe carries: request timeout and outbound proxies. */
  datatype Config = Config(timeout: real, proxy: Option<Dict>)

  /** One default username/password pair; `raw` is the raw-POST body template, if any. */
  datatype CredentialPair = CredentialPair(username: string, password: string, raw: Option<string>)

  /** The entry's `fingerprint` section: what to request and how to recognise the product. */
  datatype FingerprintSpec = FingerprintSpec(
    urls: seq<string>,
    headers: Option<Dict>,
    cookie: Option<Dict>,
    basicAuthRealm: Option<string>,
    serverHeader: Option<string>,
    body: Option<seq<string>>)

  /** The entry's `auth` section: how a login attempt is submitted. */
  datatype AuthSpec = AuthSpec(
    kind: string,
    urls: seq<string>,
    csrf: Option<string>,
    sessionid: Option<string>,
    credentials: seq<CredentialPair>)

  datatype Entry = Entry(
    name: string,
    protocol: string,
    defaultPort: Option<int>,
    ssl: Option<bool>,
    fingerprint: FingerprintSpec,
    auth: AuthSpec)

  predicate IsHttp(c: Entry) {
    c.protocol == "http"
  }

  /** `c.get('default_port', 80)`. */
  function PortOf(c: Entry): int
  {
    c.defaultPort.GetOr(80)
  }
}

/** The HTTP exchange of one probe, abstracted to what the decision layer inspects. */
module Http {
  import opened Wrappers
  import opened Catalog

  /** The single GET a probe issues (TLS verification is always off). */
  datatype Request = Request(
    url: string,
    headers: Option<Dict>,
    cookies: Option<Dict>,
    timeout: real,
    proxy: Option<Dict>)

  /**
   * The final (post-redirect) response. `inputs` maps an `<input>` name to the
   * `value` of the first such element carrying one; it is `None` when lxml
   * cannot parse the body at all.
   */
  datatype Response = Response(
    url: string,
    wwwAuthenticate: Option<string>,
    server: Option<string>,
    text: string,
    cookies: Dict,
    inputs: Option<Dict>)

  /** What the GET produced: an exception, or a response plus the session's cookie jar. */
  datatype GetOutcome = ConnectionFailed | Received(response: Response, sessionJar: Dict)

  /** Exceptions that escape a probe instead of being logged. */
  datatype Exception = HtmlParseError | KeyError(key: string)
}

=== FILE: dispatch.dfy ===
/**
 * `fingerprint` after its GET: walk the whole catalog in order, gate every
 * matching entry on its CSRF token and session cookie, and build one login
 * attempt per (credential pair, auth URL). A failed gate makes the method
 * return `None`, dropping what earlier entries produced.
 */
module Dispatch {
  import opened Wrappers
  import opened Seqs
  import opened PyText
  import opened Catalog
  import opened Http
  import opened Probes
  import opened Matching
  import opened Extraction

  /** The four scanner classes; post and raw-post carry the CSRF token, raw-post the body template. */
  datatype Variant =
    | HttpGet
    | HttpPost(csrf: Option<string>)
    | HttpRawPost(csrf: Option<string>, raw: string)
    | HttpBasicAuth

  /** A login-attempt descriptor: entry, resolved URL, credentials, configuration and the session jar. */
  datatype LoginAttempt = LoginAttempt(
    variant: Variant,
    entry: Entry,
    url: string,
    username: string,
    password: string,
    config: Config,
    cookies: Dict)

  /** What handling one catalog entry does to the loop. */
  datatype Step = Skip | Abort | Raise(exception: Exception) | Emit(attempts: seq<LoginAttempt>)

  /** What `fingerprint` returns: `None`, a list of scanners, or an escaping exception. */
  datatype Outcome = NoneReturned | Scanners(attempts: seq<LoginAttempt>) | Raised(exception: Exception)

  predicate KnownKind(kind: string) {
    kind == "get" || kind == "post" || kind == "raw_post" || kind == "basic_auth"
  }

  /** Every `pair['raw']` the loops would read exists. */
  predicate RawBodiesPresent(c: Entry, pairs: seq<CredentialPair>) {
    c.auth.kind == "raw_post" && |c.auth.urls| > 0 ==> forall i :: 0 <= i < |pairs| ==> pairs[i].raw.Some?
  }

  /** The scanner class `auth.type` selects, with its extra arguments. */
  function VariantFor(kind: string, csrf: Option<string>, pair: CredentialPair): Option<Variant>
    requires kind == "raw_post" ==> pair.raw.Some?
  {
    if kind == "get" then Some(HttpGet)
    else if kind == "post" then Some(HttpPost(csrf))
    else if kind == "raw_post" then Some(HttpRawPost(csrf, pair.raw.value))
    else if kind == "basic_auth" then Some(HttpBasicAuth)
    else None
  }

  /** The attempt built for one credential pair and one auth URL of a known `auth.type`. */
  function AttemptAt(c: Entry, pair: CredentialPair, url: string, csrf: Option<string>,
                     base: string, config: Config, jar: Dict): LoginAttempt
    requires KnownKind(c.auth.kind) && (c.auth.kind == "raw_post" ==> pair.raw.Some?)
  {
    LoginAttempt(VariantFor(c.auth.kind, csrf, pair).value, c, base + url, pair.username, pair.password, config, jar)
  }

  /** The inner `for u in cred['auth']['url']` loop for one credential pair. */
  function PairAttempts(c: Entry, pair: CredentialPair, urls: seq<string>, csrf: Option<string>,
                        base: string, config: Config, jar: Dict): seq<LoginAttempt>
    requires c.auth.kind == "raw_post" && |urls| > 0 ==> pair.raw.Some?
    decreases |urls|
  {
    if |urls| == 0 then []
    else
      var built := match VariantFor(c.auth.kind, csrf, pair)
                   case None => []
                   case Some(v) => [LoginAttempt(v, c, base + urls[0], pair.username, pair.password, config, jar)];
      built + PairAttempts(c, pair, urls[1..], csrf, base, config, jar)
  }

  /** The outer `for pair in cred['auth']['credentials']` loop. */
  function EntryAttempts(c: Entry, pairs: seq<CredentialPair>, csrf: Option<string>,
                         base: string, config: Config, jar: Dict): seq<LoginAttempt>
    requires RawBodiesPresent(c, pairs)
    decreases |pairs|
  {
    if |pairs| == 0 then []
    else PairAttempts(c, pairs[0], c.auth.urls, csrf, base, config, jar)
         + EntryAttempts(c, pairs[1..], csrf, base, config, jar)
  }

  lemma {:induction false} PairAttemptsLayout(c: Entry, pair: CredentialPair, urls: seq<string>, csrf: Option<string>,
                                              base: string, config: Config, jar: Dict)
    requires c.auth.kind == "raw_post" && |urls| > 0 ==> pair.raw.Some?
    ensures !KnownKind(c.auth.kind) ==> PairAttempts(c, pair, urls, csrf, base, config, jar) == []
    ensures KnownKind(c.auth.kind) ==> |PairAttempts(c, pair, urls, csrf, base, config, jar)| == |urls|
    ensures KnownKind(c.auth.kind) ==> forall j :: 0 <= j < |urls| ==>
              PairAttempts(c, pair, urls, csrf, base, config, jar)[j]
              == AttemptAt(c, pair, urls[j], csrf, base, config, jar)
    decreases |urls|
  {
    if |urls| > 0 {
      PairAttemptsLayout(c, pair, urls[1..], csrf, base, config, jar);
    }
  }

  /** Row-major indexing: row `i > 0` of width `n` starts one row after row `i - 1`. */
  lemma RowMajorShift(i: nat, j: nat, n: nat, rows: nat)
    requires 0 < i < rows && j < n
    ensures i * n + j == n + ((i - 1) * n + j)
    ensures (i - 1) * n + j < (rows - 1) * n
  {
  }

  lemma RowMajorSize(n: nat, rows: nat)
    requires rows > 0
    ensures n + (rows - 1) * n == rows * n
  {
  }

  /** An `auth.type` outside get/post/raw_post/basic_auth builds no attempt. */
  lemma {:induction false} EntryAttemptsUnknownKind(c: Entry, pairs: seq<CredentialPair>, csrf: Option<string>,
                                                    base: string, config: Config, jar: Dict)
    requires RawBodiesPresent(c, pairs) && !KnownKind(c.auth.kind)
    ensures EntryAttempts(c, pairs, csrf, base, config, jar) == []
    decreases |pairs|
  {
    if |pairs| > 0 {
      PairAttemptsLayout(c, pairs[0], c.auth.urls, csrf, base, config, jar);
      EntryAttemptsUnknownKind(c, pairs[1..], csrf, base, config, jar);
    }
  }

  /** The number of attempts a known `auth.type` builds: one per pair and auth URL. */
  lemma {:induction false} EntryAttemptsCount(c: Entry, pairs: seq<CredentialPair>, csrf: Option<string>,
                                              base: string, config: Config, jar: Dict)
    requires RawBodiesPresent(c, pairs) && KnownKind(c.auth.kind)
    ensures |EntryAttempts(c, pairs, csrf, base, config, jar)| == |pairs| * |c.auth.urls|
    decreases |pairs|
  {
    if |pairs| > 0 {
      PairAttemptsLayout(c, pairs[0], c.auth.urls, csrf, base, config, jar);
      EntryAttemptsCount(c, pairs[1..], csrf, base, config, jar);
      RowMajorSize(|c.auth.urls|, |pairs|);
    }
  }

  /** The first credential pair's attempts open the entry's list. */
  lemma EntryAttemptsHead(c: Entry, pairs: seq<CredentialPair>, j: nat, csrf: Option<string>,
                                             base: string, config: Config, jar: Dict)
    requires RawBodiesPresent(c, pairs) && KnownKind(c.auth.kind)
    requires 0 < |pairs| && j < |c.auth.urls|
    ensures j < |EntryAttempts(c, pairs, csrf, base, config, jar)|
    ensures EntryAttempts(c, pairs, csrf, base, config, jar)[j]
            == AttemptAt(c, pairs[0], c.auth.urls[j], csrf, base, config, jar)
  {
    var head := PairAttempts(c, pairs[0], c.auth.urls, csrf, base, config, jar);
    assert EntryAttempts(c, pairs, csrf, base, config, jar)
        == head + EntryAttempts(c, pairs[1..], csrf, base, config, jar);
    PairAttemptsLayout(c, pairs[0], c.auth.urls, csrf, base, config, jar);
  }

  /** The remaining pairs' attempts follow the first pair's `|urls|` attempts. */
  lemma EntryAttemptsTail(c: Entry, pairs: seq<CredentialPair>, k: nat, csrf: Option<string>,
                                             base: string, config: Config, jar: Dict)
    requires RawBodiesPresent(c, pairs) && KnownKind(c.auth.kind)
    requires 0 < |pairs| && k < |EntryAttempts(c, pairs[1..], csrf, base, config, jar)|
    ensures |c.auth.urls| + k < |EntryAttempts(c, pairs, csrf, base, config, jar)|
    ensures EntryAttempts(c, pairs, csrf, base, config, jar)[|c.auth.urls| + k]
            == EntryAttempts(c, pairs[1..], csrf, base, config, jar)[k]
  {
    var head := PairAttempts(c, pairs[0], c.auth.urls, csrf, base, config, jar);
    assert EntryAttempts(c, pairs, csrf, base, config, jar)
        == head + EntryAttempts(c, pairs[1..], csrf, base, config, jar);
    PairAttemptsLayout(c, pairs[0], c.auth.urls, csrf, base, config, jar);
  }

  /**
   * Credential pairs form the outer loop and auth URLs the inner one: the
   * attempt for pair `i` and auth URL `j` sits at `i * |urls| + j`.
   */
  lemma {:induction false} EntryAttemptAt(c: Entry, pairs: seq<CredentialPair>, i: nat, j: nat, csrf: Option<string>,
                                          base: string, config: Config, jar: Dict)
    requires RawBodiesPresent(c, pairs) && KnownKind(c.auth.kind)
    requires i < |pairs| && j < |c.auth.urls|
    ensures i * |c.auth.urls| + j < |EntryAttempts(c, pairs, csrf, base, config, jar)|
    ensures EntryAttempts(c, pairs, csrf, base, config, jar)[i * |c.auth.urls| + j]
            == AttemptAt(c, pairs[i], c.auth.urls[j], csrf, base, config, jar)
    decreases i
  {
    var n := |c.auth.urls|;
    if i == 0 {
      EntryAttemptsHead(c, pairs, j, csrf, base, config, jar);
    } else {
      EntryAttemptAt(c, pairs[1..], i - 1, j, csrf, base, config, jar);
      RowMajorShift(i, j, n, |pairs|);
      EntryAttemptsTail(c, pairs, (i - 1) * n + j, csrf, base, config, jar);
      assert pairs[1..][i - 1] == pairs[i];
    }
  }

  // ---------------------------------------------------------------------------
  // One catalog entry
  // ---------------------------------------------------------------------------

  /** A CSRF field is configured but the body cannot be parsed. */
  predicate CsrfUnparsable(c: Entry, res: Response) {
    Truthy(c.auth.csrf) && res.inputs.None?
  }

  /** A CSRF field is configured and the page has no such input, or an empty value for it. */
  predicate CsrfMissing(c: Entry, res: Response) {
    Truthy(c.auth.csrf) && res.inputs.Some? &&
    (c.auth.csrf.value !in res.inputs.value || res.inputs.value[c.auth.csrf.value] == "")
  }

  /** A session cookie is configured and the response did not set it. */
  predicate SessionMissing(c: Entry, res: Response) {
    Truthy(c.auth.sessionid) && c.auth.sessionid.value !in res.cookies
  }

  /** A raw-POST entry with auth URLs has a credential pair without `raw`. */
  predicate RawBodyMissing(c: Entry) {
    !RawBodiesPresent(c, c.auth.credentials)
  }

  /**
   * The body of `for cred in self.creds`. An entry that does not match is
   * skipped. A matching one extracts its token (the parse may raise), fails
   * its CSRF gate or else its session gate (return `None`), raises on a
   * missing raw body, or contributes its attempts.
   */
  function EntryStep(c: Entry, res: Response, jar: Dict, config: Config,
                     matches: (string, string) -> bool, baseUrl: string -> string): (r: Step)
    ensures r.Skip? <==> !IsMatch(c, res, matches)
    ensures r.Abort? <==> IsMatch(c, res, matches) && !CsrfUnparsable(c, res) &&
                          (CsrfMissing(c, res) || SessionMissing(c, res))
    ensures r.Raise? <==> IsMatch(c, res, matches) &&
                          (CsrfUnparsable(c, res) ||
                           (!CsrfMissing(c, res) && !SessionMissing(c, res) && RawBodyMissing(c)))
    ensures r.Raise? ==> r.exception == (if CsrfUnparsable(c, res) then HtmlParseError else KeyError("raw"))
    ensures r.Emit? ==> CsrfToken(res, c).Success? && RawBodiesPresent(c, c.auth.credentials) &&
                        r.attempts == EntryAttempts(c, c.auth.credentials, CsrfToken(res, c).value,
                                                    baseUrl(res.url), config, jar)
  {
    if !IsMatch(c, res, matches) then Skip
    else
      match CsrfToken(res, c)
      case Failure(e) => Raise(e)
      case Success(csrf) =>
        if Truthy(c.auth.csrf) && !Truthy(csrf) then Abort
        else if Truthy(c.auth.sessionid) && SessionId(res, c).None? then Abort
        else if RawBodyMissing(c) then Raise(KeyError("raw"))
        else Emit(EntryAttempts(c, c.auth.credentials, csrf, baseUrl(res.url), config, jar))
  }

  // ---------------------------------------------------------------------------
  // The loop over the catalog
  // ---------------------------------------------------------------------------

  /** `for cred in self.creds`, with `scanners` the list built so far. */
  function DispatchFrom(cs: seq<Entry>, res: Response, jar: Dict, config: Config,
                        matches: (string, string) -> bool, baseUrl: string -> string,
                        scanners: seq<LoginAttempt>): Outcome
    decreases |cs|
  {
    if |cs| == 0 then Scanners(scanners)
    else
      match EntryStep(cs[0], res, jar, config, matches, baseUrl)
      case Skip => DispatchFrom(cs[1..], res, jar, config, matches, baseUrl, scanners)
      case Abort => NoneReturned
      case Raise(e) => Raised(e)
      case Emit(ds) => DispatchFrom(cs[1..], res, jar, config, matches, baseUrl, scanners + ds)
  }

  /** `fingerprint()`: the GET (answered by `network`), then the catalog loop. */
  function Fingerprint(p: Probe, network: Request -> GetOutcome,
                       matches: (string, string) -> bool, baseUrl: string -> string): (r: Outcome)
    ensures network(RequestOf(p)).ConnectionFailed? ==> r == NoneReturned
  {
    match network(RequestOf(p))
    case ConnectionFailed => NoneReturned
    case Received(res, jar) => DispatchFrom(p.creds, res, jar, p.config, matches, baseUrl, [])
  }

  // ---------------------------------------------------------------------------
  // Declarative reading of the loop
  // ---------------------------------------------------------------------------

  /** The decision `EntryStep` takes on each entry, in catalog order. */
  function Steps(cs: seq<Entry>, res: Response, jar: Dict, config: Config,
                 matches: (string, string) -> bool, baseUrl: string -> string): seq<Step>
  {
    seq(|cs|, i requires 0 <= i < |cs| => EntryStep(cs[i], res, jar, config, matches, baseUrl))
  }

  /** A step that ends the method early. */
  predicate Stops(s: Step) {
    s.Abort? || s.Raise?
  }

  /** The attempts of every emitting step, in order. */
  function Emitted(steps: seq<Step>): seq<LoginAttempt>
    decreases |steps|
  {
    if |steps| == 0 then []
    else (if steps[0].Emit? then steps[0].attempts else []) + Emitted(steps[1..])
  }

  /** The loop over already-decided steps, with `scanners` the list built so far. */
  function RunSteps(steps: seq<Step>, scanners: seq<LoginAttempt>): Outcome
    decreases |steps|
  {
    if |steps| == 0 then Scanners(scanners)
    else
      match steps[0]
      case Skip => RunSteps(steps[1..], scanners)
      case Abort => NoneReturned
      case Raise(e) => Raised(e)
      case Emit(ds) => RunSteps(steps[1..], scanners + ds)
  }

  /** Each entry's step depends on that entry alone, so the loop is a run over its steps. */
  lemma {:induction false} DispatchIsRun(cs: seq<Entry>, res: Response, jar: Dict, config: Config,
                                         matches: (string, string) -> bool, baseUrl: string -> string,
                                         scanners: seq<LoginAttempt>)
    ensures DispatchFrom(cs, res, jar, config, matches, baseUrl, scanners)
            == RunSteps(Steps(cs, res, jar, config, matches, baseUrl), scanners)
    decreases |cs|
  {
    if |cs| > 0 {
      var steps := Steps(cs, res, jar, config, matches, baseUrl);
      assert steps[1..] == Steps(cs[1..], res, jar, config, matches, baseUrl);
      match steps[0]
      case Skip => DispatchIsRun(cs[1..], res, jar, config, matches, baseUrl, scanners);
      case Abort =>
      case Raise(_) =>
      case Emit(ds) => DispatchIsRun(cs[1..], res, jar, config, matches, baseUrl, scanners + ds);
    }
  }

  /**
   * A run over steps: if no step stops it, the result is the list built so
   * far followed by every emitted attempt in order; otherwise the first
   * stopping step alone decides the result.
   */
  lemma {:induction false} RunStopsAtFirstFailure(steps: seq<Step>, scanners: seq<LoginAttempt>)
    ensures match FirstWhere(steps, Stops)
            case None => RunSteps(steps, scanners) == Scanners(scanners + Emitted(steps))
            case Some(k) => RunSteps(steps, scanners)
                            == (if steps[k].Abort? then NoneReturned else Raised(steps[k].exception))
    decreases |steps|
  {
    if |steps| == 0 {
      assert scanners + [] == scanners;
    } else if !Stops(steps[0]) {
      FirstWhereTail(steps, Stops);
      if steps[0].Emit? {
        var next := scanners + steps[0].attempts;
        RunStopsAtFirstFailure(steps[1..], next);
        assert Emitted(steps) == steps[0].attempts + Emitted(steps[1..]);
        assert next + Emitted(steps[1..]) == scanners + Emitted(steps);
      } else {
        RunStopsAtFirstFailure(steps[1..], scanners);
        assert Emitted(steps) == [] + Emitted(steps[1..]);
        assert Emitted(steps) == Emitted(steps[1..]);
      }
    }
  }

  /**
   * The loop, read declaratively: if no entry stops it, the result is the
   * list built so far followed by every matching entry's attempts in catalog
   * order; otherwise the first stopping entry alone decides the result, and
   * a failed gate returns `None` whatever was built before it or would be
   * built after it.
   */
  lemma DispatchStopsAtFirstFailure(cs: seq<Entry>, res: Response, jar: Dict, config: Config,
                                    matches: (string, string) -> bool, baseUrl: string -> string,
                                    scanners: seq<LoginAttempt>)
    ensures var steps := Steps(cs, res, jar, config, matches, baseUrl);
            var r := DispatchFrom(cs, res, jar, config, matches, baseUrl, scanners);
            match FirstWhere(steps, Stops)
            case None => r == Scanners(scanners + Emitted(steps))
            case Some(k) => r == (if steps[k].Abort? then NoneReturned else Raised(steps[k].exception))
  {
    DispatchIsRun(cs, res, jar, config, matches, baseUrl, scanners);
    RunStopsAtFirstFailure(Steps(cs, res, jar, config, matches, baseUrl), scanners);
  }
}

=== FILE: dispatch_facts.dfy ===
/** What `fingerprint` promises its caller, derived from the loop model. */
module DispatchFacts {
  import opened Wrappers
  import opened Seqs
  import opened PyText
  import opened Catalog
  import opened Http
  import opened Probes
  import opened Builder
  import opened BuilderFacts
  import opened Matching
  import opened Extraction
  import opened Dispatch

  /** The token a post or raw-post attempt for `c` carries (Python `False` when none is configured). */
  function CarriedToken(c: Entry, res: Response): Option<string> {
    if Truthy(c.auth.csrf) && res.inputs.Some? && c.auth.csrf.value in res.inputs.value
    then Some(res.inputs.value[c.auth.csrf.value])
    else None
  }

  /**
   * The attempt `d` was built for entry `c` from this response: it carries the
   * entry, the session jar and the run configuration, targets the response's
   * base URL followed by one of the entry's auth paths, holds one of its
   * credential pairs, and is the scanner class `auth.type` names, with the
   * page's token for post and raw-post and the pair's raw body for raw-post.
   */
  predicate Fits(d: LoginAttempt, c: Entry, res: Response, jar: Dict, config: Config, baseUrl: string -> string) {
    && d.entry == c && d.cookies == jar && d.config == config
    && (exists u :: u in c.auth.urls && d.url == baseUrl(res.url) + u)
    && (exists pair :: pair in c.auth.credentials && d.username == pair.username && d.password == pair.password
                       && (d.variant.HttpRawPost? ==> pair.raw == Some(d.variant.raw)))
    && (c.auth.kind == "get" <==> d.variant.HttpGet?)
    && (c.auth.kind == "post" <==> d.variant.HttpPost?)
    && (c.auth.kind == "raw_post" <==> d.variant.HttpRawPost?)
    && (c.auth.kind == "basic_auth" <==> d.variant.HttpBasicAuth?)
    && (d.variant.HttpPost? || d.variant.HttpRawPost? ==> d.variant.csrf == CarriedToken(c, res))
  }

  lemma {:induction false} PairAttemptsFit(c: Entry, pair: CredentialPair, urls: seq<string>, res: Response,
                                           jar: Dict, config: Config, baseUrl: string -> string)
    requires pair in c.auth.credentials
    requires forall u :: u in urls ==> u in c.auth.urls
    requires c.auth.kind == "raw_post" && |urls| > 0 ==> pair.raw.Some?
    requires CsrfToken(res, c).Success?
    ensures forall d :: d in PairAttempts(c, pair, urls, CsrfToken(res, c).value, baseUrl(res.url), config, jar) ==>
              Fits(d, c, res, jar, config, baseUrl)
    decreases |urls|
  {
    if |urls| > 0 {
      PairAttemptsFit(c, pair, urls[1..], res, jar, config, baseUrl);
      var csrf := CsrfToken(res, c).value;
      forall d | d in PairAttempts(c, pair, urls, csrf, baseUrl(res.url), config, jar)
        ensures Fits(d, c, res, jar, config, baseUrl)
      {
        if d !in PairAttempts(c, pair, urls[1..], csrf, baseUrl(res.url), config, jar) {
          assert urls[0] in c.auth.urls;
        }
      }
    }
  }

  lemma {:induction false} EntryAttemptsFit(c: Entry, pairs: seq<CredentialPair>, res: Response,
                                            jar: Dict, config: Config, baseUrl: string -> string)
    requires forall pair :: pair in pairs ==> pair in c.auth.credentials
    requires RawBodiesPresent(c, pairs)
    requires CsrfToken(res, c).Success?
    ensures forall d :: d in EntryAttempts(c, pairs, CsrfToken(res, c).value, baseUrl(res.url), config, jar) ==>
              Fits(d, c, res, jar, config, baseUrl)
    decreases |pairs|
  {
    if |pairs| > 0 {
      PairAttemptsFit(c, pairs[0], c.auth.urls, res, jar, config, baseUrl);
      EntryAttemptsFit(c, pairs[1..], res, jar, config, baseUrl);
    }
  }

  /** An attempt of the emitted list comes from some emitting step. */
  lemma {:induction false} EmittedMember(steps: seq<Step>, d: LoginAttempt)
    requires d in Emitted(steps)
    ensures exists i :: 0 <= i < |steps| && steps[i].Emit? && d in steps[i].attempts
    decreases |steps|
  {
    if !(steps[0].Emit? && d in steps[0].attempts) {
      EmittedMember(steps[1..], d);
      var i :| 0 <= i < |steps[1..]| && steps[1..][i].Emit? && d in steps[1..][i].attempts;
      assert steps[i + 1] == steps[1..][i];
    }
  }

  /**
   * Every attempt `fingerprint` returns was built for a catalog entry that
   * matched the response and passed both gates, and `Fits` it: in particular
   * it carries the session's cookie jar, not the extracted session mapping.
   */
  lemma AttemptsComeFromPassingEntries(p: Probe, network: Request -> GetOutcome,
                                       matches: (string, string) -> bool, baseUrl: string -> string)
    requires network(RequestOf(p)).Received?
    requires Fingerprint(p, network, matches, baseUrl).Scanners?
    ensures var res := network(RequestOf(p)).response;
            var jar := network(RequestOf(p)).sessionJar;
            forall d :: d in Fingerprint(p, network, matches, baseUrl).attempts ==>
              && d.entry in p.creds
              && IsMatch(d.entry, res, matches)
              && !CsrfUnparsable(d.entry, res) && !CsrfMissing(d.entry, res) && !SessionMissing(d.entry, res)
              && Fits(d, d.entry, res, jar, p.config, baseUrl)
  {
    var res := network(RequestOf(p)).response;
    var jar := network(RequestOf(p)).sessionJar;
    var steps := Steps(p.creds, res, jar, p.config, matches, baseUrl);
    DispatchStopsAtFirstFailure(p.creds, res, jar, p.config, matches, baseUrl, []);
    assert FirstWhere(steps, Stops).None?;
    assert Fingerprint(p, network, matches, baseUrl).attempts == [] + Emitted(steps);
    forall d | d in Fingerprint(p, network, matches, baseUrl).attempts
      ensures && d.entry in p.creds
              && IsMatch(d.entry, res, matches)
              && !CsrfUnparsable(d.entry, res) && !CsrfMissing(d.entry, res) && !SessionMissing(d.entry, res)
              && Fits(d, d.entry, res, jar, p.config, baseUrl)
    {
      EmittedMember(steps, d);
      var i :| 0 <= i < |steps| && steps[i].Emit? && d in steps[i].attempts;
      var c := p.creds[i];
      EntryAttemptsFit(c, c.auth.credentials, res, jar, p.config, baseUrl);
      assert Fits(d, c, res, jar, p.config, baseUrl);
    }
  }

  /**
   * A failed gate ends the probe with `None`: once entry `k` aborts, with no
   * earlier entry having stopped the loop, the attempts of earlier matching
   * entries are dropped and later entries are never looked at.
   */
  lemma GateFailureDiscardsEverything(p: Probe, network: Request -> GetOutcome,
                                                        matches: (string, string) -> bool,
                                                        baseUrl: string -> string, k: nat)
    requires network(RequestOf(p)).Received?
    requires var res := network(RequestOf(p)).response;
             var jar := network(RequestOf(p)).sessionJar;
             && k < |p.creds|
             && EntryStep(p.creds[k], res, jar, p.config, matches, baseUrl).Abort?
             && forall j :: 0 <= j < k ==> !Stops(EntryStep(p.creds[j], res, jar, p.config, matches, baseUrl))
    ensures Fingerprint(p, network, matches, baseUrl) == NoneReturned
  {
    var res := network(RequestOf(p)).response;
    var jar := network(RequestOf(p)).sessionJar;
    var steps := Steps(p.creds, res, jar, p.config, matches, baseUrl);
    DispatchStopsAtFirstFailure(p.creds, res, jar, p.config, matches, baseUrl, []);
    assert Stops(steps[k]);
    var first := FirstWhere(steps, Stops);
    assert first.Some? && first.value == k;
  }

  /**
   * The early-abort case: two entries both match; the first needs a CSRF
   * token the page lacks, the second needs nothing and would build attempts
   * on its own. Together they yield `None`, not the second entry's attempts.
   */
  lemma CsrfAbortDropsLaterMatch(e1: Entry, e2: Entry, res: Response, jar: Dict, config: Config,
                                                   matches: (string, string) -> bool, baseUrl: string -> string)
    requires IsMatch(e1, res, matches) && IsMatch(e2, res, matches)
    requires Truthy(e1.auth.csrf) && res.inputs.Some? && e1.auth.csrf.value !in res.inputs.value
    requires !Truthy(e2.auth.csrf) && !Truthy(e2.auth.sessionid) && e2.auth.kind == "get"
    requires |e2.auth.credentials| > 0 && |e2.auth.urls| > 0
    ensures DispatchFrom([e1, e2], res, jar, config, matches, baseUrl, []) == NoneReturned
    ensures DispatchFrom([e2], res, jar, config, matches, baseUrl, []).Scanners?
    ensures |DispatchFrom([e2], res, jar, config, matches, baseUrl, []).attempts| > 0
  {
    assert EntryStep(e1, res, jar, config, matches, baseUrl) == Abort;
    var step2 := EntryStep(e2, res, jar, config, matches, baseUrl);
    var ds := EntryAttempts(e2, e2.auth.credentials, None, baseUrl(res.url), config, jar);
    assert step2 == Emit(ds);
    EntryAttemptAt(e2, e2.auth.credentials, 0, 0, None, baseUrl(res.url), config, jar);
    assert DispatchFrom([e2], res, jar, config, matches, baseUrl, []) == Scanners([] + ds);
  }

  /** `None` and `[]` differ: a response no entry matches yields an empty list, not `None`. */
  lemma NoMatchYieldsEmptyList(p: Probe, network: Request -> GetOutcome,
                                                 matches: (string, string) -> bool, baseUrl: string -> string)
    requires network(RequestOf(p)).Received?
    requires forall c :: c in p.creds ==> !IsMatch(c, network(RequestOf(p)).response, matches)
    ensures Fingerprint(p, network, matches, baseUrl) == Scanners([])
  {
    var res := network(RequestOf(p)).response;
    var jar := network(RequestOf(p)).sessionJar;
    var steps := Steps(p.creds, res, jar, p.config, matches, baseUrl);
    DispatchStopsAtFirstFailure(p.creds, res, jar, p.config, matches, baseUrl, []);
    assert forall i :: 0 <= i < |steps| ==> steps[i] == Skip by {
      forall i | 0 <= i < |steps| ensures steps[i] == Skip {
        assert p.creds[i] in p.creds;
      }
    }
    NothingEmitted(steps);
  }

  lemma {:induction false} NothingEmitted(steps: seq<Step>)
    requires forall i :: 0 <= i < |steps| ==> steps[i] == Skip
    ensures Emitted(steps) == []
    decreases |steps|
  {
    if |steps| > 0 {
      NothingEmitted(steps[1..]);
    }
  }

  /**
   * A matched get-type entry with two credential pairs and one auth URL
   * builds exactly two attempts, one per pair in pair order, with the same
   * URL and the same cookie jar.
   */
  lemma TwoPairsOneUrl(c: Entry, csrf: Option<string>, base: string, config: Config, jar: Dict)
    requires c.auth.kind == "get" && |c.auth.credentials| == 2 && |c.auth.urls| == 1
    ensures var ds := EntryAttempts(c, c.auth.credentials, csrf, base, config, jar);
            && |ds| == 2
            && ds[0].username == c.auth.credentials[0].username && ds[0].password == c.auth.credentials[0].password
            && ds[1].username == c.auth.credentials[1].username && ds[1].password == c.auth.credentials[1].password
            && ds[0].url == ds[1].url == base + c.auth.urls[0]
            && ds[0].cookies == ds[1].cookies == jar
            && ds[0].variant == ds[1].variant == HttpGet
  {
    EntryAttemptsCount(c, c.auth.credentials, csrf, base, config, jar);
    EntryAttemptAt(c, c.auth.credentials, 0, 0, csrf, base, config, jar);
    EntryAttemptAt(c, c.auth.credentials, 1, 0, csrf, base, config, jar);
  }

  /**
   * Deduplicating probes by `__eq__` is safe: equal probes that carry the
   * same catalog and configuration send the same request and so, whatever
   * the network answers, return the same result.
   */
  lemma EqualProbesSameOutcome(a: Probe, b: Probe, network: Request -> GetOutcome,
                                                 matches: (string, string) -> bool, baseUrl: string -> string)
    requires EqTruthy(ProbeEq(a, b)) && a.config == b.config && a.creds == b.creds
    ensures Fingerprint(a, network, matches, baseUrl) == Fingerprint(b, network, matches, baseUrl)
  {
    EqualProbesIssueSameRequest(a, b);
  }

  /** In particular, any two `__eq__`-equal probes out of one `build_fingerprints` call are interchangeable. */
  lemma BuiltProbesCoalesce(targets: seq<Target>, creds: seq<Entry>, config: Config,
                                              a: Probe, b: Probe, network: Request -> GetOutcome,
                                              matches: (string, string) -> bool, baseUrl: string -> string)
    requires forall t :: t in targets ==> Evaluable(t, creds)
    requires a in BuildFingerprints(targets, creds, config) && b in BuildFingerprints(targets, creds, config)
    requires EqTruthy(ProbeEq(a, b))
    ensures Fingerprint(a, network, matches, baseUrl) == Fingerprint(b, network, matches, baseUrl)
  {
    BuildProbesCarryCatalog(targets, creds, config);
    EqualProbesSameOutcome(a, b, network, matches, baseUrl);
  }
}

=== FILE: extraction.dfy ===
/** `_get_csrf_token` and `_get_session_id`: what a login attempt needs from the fingerprint response. */
module Extraction {
  import opened Wrappers
  import opened PyText
  import opened Catalog
  import opened Http

  /**
   * `_get_csrf_token(res, cred)`: the `value` of the first `<input>` named
   * after `auth.csrf`, or `None` (Python `False`) when no such name is
   * configured or no such input exists. When a name is configured the body is
   * parsed outside the `try`, so a body lxml rejects raises.
   */
  function CsrfToken(res: Response, c: Entry): (r: Result<Option<string>, Exception>)
    ensures r.Failure? <==> Truthy(c.auth.csrf) && res.inputs.None?
    ensures r.Failure? ==> r.error == HtmlParseError
    ensures r.Success? && r.value.Some? <==>
              Truthy(c.auth.csrf) && res.inputs.Some? && c.auth.csrf.value in res.inputs.value
    ensures r.Success? && r.value.Some? ==> r.value.value == res.inputs.value[c.auth.csrf.value]
  {
    if Truthy(c.auth.csrf) then
      match res.inputs
      case None => Failure(HtmlParseError)
      case Some(inputs) =>
        if c.auth.csrf.value in inputs then Success(Some(inputs[c.auth.csrf.value])) else Success(None)
    else Success(None)
  }

  /**
   * `_get_session_id(res, cred)`: the one-entry mapping `{name: value}` for the
   * cookie named by `auth.sessionid`, or `None` (Python `False`) when no name is
   * configured or the response has no such cookie.
   */
  function SessionId(res: Response, c: Entry): (r: Option<Dict>)
    ensures r.Some? <==> Truthy(c.auth.sessionid) && c.auth.sessionid.value in res.cookies
    ensures r.Some? ==> |r.value| == 1 && c.auth.sessionid.value in r.value
    ensures r.Some? ==> r.value[c.auth.sessionid.value] == res.cookies[c.auth.sessionid.value]
  {
    if Truthy(c.auth.sessionid) && c.auth.sessionid.value in res.cookies then
      var name := c.auth.sessionid.value;
      Some(map[name := res.cookies[name]])
    else None
  }

  /** A jar holding `session=abc123` and an entry naming `session` give `{"session": "abc123"}`. */
  lemma SessionCookieExample(res: Response, c: Entry)
    requires res.cookies == map["session" := "abc123"]
    requires c.auth.sessionid == Some("session")
    ensures SessionId(res, c) == Some(map["session" := "abc123"])
  {
  }
}

=== FILE: matching.dfy ===
/**
 * `ismatch`: the signature predicate. `re.search` is a parameter `matches`
 * (pattern, text) standing for "the pattern matches somewhere in the text".
 */
module Matching {
  import opened Wrappers
  import opened PyText
  import opened Catalog
  import opened Http

  /** The entry's realm is set and occurs in a present `WWW-Authenticate` header. */
  predicate RealmHit(c: Entry, res: Response) {
    Truthy(c.fingerprint.basicAuthRealm) && res.wwwAuthenticate.Some? &&
    Contains(res.wwwAuthenticate.value, c.fingerprint.basicAuthRealm.value)
  }

  /** The entry's server string is set and occurs in a present, non-empty `Server` header. */
  predicate ServerHit(c: Entry, res: Response) {
    Truthy(c.fingerprint.serverHeader) && Truthy(res.server) &&
    Contains(res.server.value, c.fingerprint.serverHeader.value)
  }

  /** `if body:` — a body pattern list is present and non-empty. */
  predicate BodyListed(c: Entry) {
    c.fingerprint.body.Some? && |c.fingerprint.body.value| > 0
  }

  /**
   * The `for b in body` loop: every pattern reassigns the flag, `True` when it
   * matches and `False` when it does not.
   */
  function BodyLoop(flag: bool, patterns: seq<string>, text: string, matches: (string, string) -> bool): bool
    decreases |patterns|
  {
    if |patterns| == 0 then flag
    else BodyLoop(if matches(patterns[0], text) then true else false, patterns[1..], text, matches)
  }

  /** Last pattern wins: after a non-empty list the flag is whether its last pattern matched. */
  lemma {:induction false} LastPatternWins(flag: bool, patterns: seq<string>, text: string,
                                           matches: (string, string) -> bool)
    requires |patterns| > 0
    ensures BodyLoop(flag, patterns, text, matches) == matches(patterns[|patterns| - 1], text)
    decreases |patterns|
  {
    if |patterns| > 1 {
      LastPatternWins(matches(patterns[0], text), patterns[1..], text, matches);
    }
  }

  /**
   * `ismatch(cred, response)`. Non-http entries never match. Without a body
   * pattern list the realm and server checks are or-ed; with one, the last
   * pattern alone decides, overriding both header checks and every earlier
   * pattern.
   */
  function IsMatch(c: Entry, res: Response, matches: (string, string) -> bool): (r: bool)
    ensures !IsHttp(c) ==> !r
    ensures IsHttp(c) && !BodyListed(c) ==> (r <==> RealmHit(c, res) || ServerHit(c, res))
    ensures IsHttp(c) && BodyListed(c) ==>
              (r <==> matches(c.fingerprint.body.value[|c.fingerprint.body.value| - 1], res.text))
  {
    if !IsHttp(c) then false
    else
      var afterRealm := RealmHit(c, res);
      var afterServer := if ServerHit(c, res) then true else afterRealm;
      if BodyListed(c) then
        LastPatternWins(afterServer, c.fingerprint.body.value, res.text, matches);
        BodyLoop(afterServer, c.fingerprint.body.value, res.text, matches)
      else afterServer
  }

  /**
   * Patterns [match, no match, match] give a match: the third pattern
   * overwrites the `False` the second one set.
   */
  lemma ThreePatternExample(c: Entry, res: Response, matches: (string, string) -> bool)
    requires IsHttp(c) && c.fingerprint.body.Some? && |c.fingerprint.body.value| == 3
    requires matches(c.fingerprint.body.value[0], res.text)
    requires !matches(c.fingerprint.body.value[1], res.text)
    requires matches(c.fingerprint.body.value[2], res.text)
    ensures IsMatch(c, res, matches)
  {
  }

  /**
   * The flag is not an "any pattern matches": a realm hit and a matching first
   * pattern are both lost when the last pattern fails.
   */
  lemma FailingLastPatternOverridesEverything(c: Entry, res: Response, matches: (string, string) -> bool)
    requires IsHttp(c) && BodyListed(c)
    requires RealmHit(c, res) && ServerHit(c, res)
    requires matches(c.fingerprint.body.value[0], res.text)
    requires !matches(c.fingerprint.body.value[|c.fingerprint.body.value| - 1], res.text)
    ensures !IsMatch(c, res, matches)
  {
  }

  /** Without a body list, a realm hit on its own is enough, and so is a server hit on its own. */
  lemma HeaderHitSuffices(c: Entry, res: Response, matches: (string, string) -> bool)
    requires IsHttp(c) && !BodyListed(c)
    ensures RealmHit(c, res) ==> IsMatch(c, res, matches)
    ensures ServerHit(c, res) ==> IsMatch(c, res, matches)
  {
  }

  /**
   * Every falsy case the two header tests rule out: a missing
   * `WWW-Authenticate` header, or an absent or empty realm, never yields a
   * realm hit; a missing or empty `Server` header, or an absent or empty
   * server string, never yields a server hit.
   */
  lemma MissingHeaderNeverHits(c: Entry, res: Response)
    ensures (res.wwwAuthenticate.None? || c.fingerprint.basicAuthRealm.None?
             || c.fingerprint.basicAuthRealm == Some("")) ==> !RealmHit(c, res)
    ensures (res.server.None? || res.server == Some("")
             || c.fingerprint.serverHeader.None? || c.fingerprint.serverHeader == Some("")) ==> !ServerHit(c, res)
  {
  }
}

=== FILE: probes.dfy ===
/** A fingerprint probe: one target/URL/port/TLS/headers/cookies tuple plus its run context. */
module Probes {
  import opened Wrappers
  import opened PyText
  import opened Catalog
  import Http

  /** A scan target: a netaddr `IPAddress`, or a `host` / `host:port` string. */
  datatype Target = IpAddr(addr: string) | HostSpec(spec: string)

  /** `str(target)`. */
  function TargetText(t: Target): string {
    match t
    case IpAddr(a) => a
    case HostSpec(s) => s
  }

  /** A string target carrying a port, as `not isinstance(target, IPAddress) and ":" in target`. */
  predicate HasPort(t: Target) {
    t.HostSpec? && ':' in t.spec
  }

  /** `target.split(":")[1]`: the text between the first colon and the next one (or the end). */
  function PortText(t: Target): (p: string)
    requires HasPort(t)
    ensures ':' !in p
    ensures Split(t.spec, ':')[0] + [':'] + p <= t.spec
    ensures var k := |Split(t.spec, ':')[0]| + 1 + |p|;
            k == |t.spec| || t.spec[k] == ':'
  {
    var parts := Split(t.spec, ':');
    assert Join(parts, ':') == parts[0] + [':'] + Join(parts[1..], ':');
    assert |parts| > 2 ==> Join(parts[1..], ':') == parts[1] + [':'] + Join(parts[2..], ':');
    parts[1]
  }

  /** The target rebound to `target.split(":")[0]`. */
  function Strip(t: Target): (h: Target)
    requires HasPort(t)
    ensures h.HostSpec? && !HasPort(h)
    ensures h.spec + [':'] <= t.spec
  {
    var parts := Split(t.spec, ':');
    assert Join(parts, ':') == parts[0] + [':'] + Join(parts[1..], ':');
    HostSpec(parts[0])
  }

  datatype Probe = Probe(
    target: Target,
    url: string,
    port: int,
    ssl: Option<bool>,
    headers: Option<Dict>,
    cookies: Option<Dict>,
    config: Config,
    creds: seq<Entry>)

  /** The part of a probe `__eq__` compares. */
  function Identity(p: Probe): (Target, string, int, Option<bool>, Option<Dict>, Option<Dict>) {
    (p.target, p.url, p.port, p.ssl, p.headers, p.cookies)
  }

  /** Python truthiness of what `__eq__` returns (`True` or an implicit `None`). */
  predicate EqTruthy(r: Option<bool>) {
    r == Some(true)
  }

  /** `__eq__`: `True` when the six identity fields agree, otherwise falls off the end (`None`). */
  function ProbeEq(a: Probe, b: Probe): (r: Option<bool>)
    ensures r != Some(false)
    ensures EqTruthy(r) <==> Identity(a) == Identity(b)
    ensures r.None? <==> Identity(a) != Identity(b)
  {
    if a.target == b.target && a.url == b.url && a.port == b.port && a.ssl == b.ssl
       && a.headers == b.headers && a.cookies == b.cookies
    then Some(true)
    else None
  }

  /** `'https' if self.ssl else 'http'`. */
  function Scheme(ssl: Option<bool>): string {
    if ssl == Some(true) then "https" else "http"
  }

  /** `full_URL`: scheme, `://`, target, `:`, decimal port, then the path. */
  function FullUrl(p: Probe): (u: string)
    ensures p.ssl == Some(true) <==> "https://" <= u
    ensures p.ssl != Some(true) <==> "http://" <= u
    ensures |p.url| <= |u| && u[|u| - |p.url|..] == p.url
  {
    var u := Scheme(p.ssl) + "://" + TargetText(p.target) + ":" + IntToString(p.port) + p.url;
    assert u[4] == (if p.ssl == Some(true) then 's' else ':');
    u
  }

  /** The GET the probe issues: its URL, headers, cookies, timeout and proxies. */
  function RequestOf(p: Probe): Http.Request
  {
    Http.Request(FullUrl(p), p.headers, p.cookies, p.config.timeout, p.config.proxy)
  }

  /** Probe equality is an equivalence: reflexive, symmetric and transitive. */
  lemma ProbeEqIsEquivalence(a: Probe, b: Probe, c: Probe)
    ensures EqTruthy(ProbeEq(a, a))
    ensures EqTruthy(ProbeEq(a, b)) ==> EqTruthy(ProbeEq(b, a))
    ensures EqTruthy(ProbeEq(a, b)) && EqTruthy(ProbeEq(b, c)) ==> EqTruthy(ProbeEq(a, c))
  {
  }

  /** Equality ignores the run context: the configuration and the catalog a probe carries. */
  lemma ProbeEqIgnoresContext(a: Probe, b: Probe, config: Config, creds: seq<Entry>)
    ensures ProbeEq(a, b.(config := config, creds := creds)) == ProbeEq(a, b)
  {
  }

  /**
   * Equal probes that share their run configuration issue the very same GET,
   * so coalescing them before the network is reached loses no request.
   */
  lemma EqualProbesIssueSameRequest(a: Probe, b: Probe)
    requires EqTruthy(ProbeEq(a, b))
    requires a.config == b.config
    ensures RequestOf(a) == RequestOf(b)
  {
    assert Identity(a) == Identity(b);
    assert a.target == b.target && a.port == b.port && a.ssl == b.ssl && a.url == b.url;
  }

  /**
   * For every probe, `full_URL` lays out, in order and with nothing between
   * them: the scheme and `://`, the target text, `:` and the decimal port,
   * then the path. No assumption is made about colons in the target or path.
   */
  lemma FullUrlLayout(p: Probe)
    ensures var u := FullUrl(p);
            var a := |Scheme(p.ssl) + "://"|;
            var b := a + |TargetText(p.target)|;
            var c := b + 1 + |IntToString(p.port)|;
            c + |p.url| == |u| && u[..a] == Scheme(p.ssl) + "://" && u[a..b] == TargetText(p.target)
            && u[b..c] == ":" + IntToString(p.port) && u[c..] == p.url
  {
    var head := Scheme(p.ssl) + "://";
    var host := TargetText(p.target);
    var port := ":" + IntToString(p.port);
    assert FullUrl(p) == head + host + port + p.url;
    SlicesOfFour(head, host, port, p.url);
  }

  /** Each part of a four-part concatenation is the slice at its offset. */
  lemma SlicesOfFour(w: string, x: string, y: string, z: string)
    ensures var u := w + x + y + z;
            var a := |w|;
            var b := a + |x|;
            var c := b + |y|;
            c + |z| == |u| && u[..a] == w && u[a..b] == x && u[b..c] == y && u[c..] == z
  {
    var u := w + x + y + z;
    assert u[..|w|] == w;
    assert u[|w|..|w| + |x|] == x;
    assert u[|w| + |x|..|w| + |x| + |y|] == y;
    assert u[|w| + |x| + |y|..] == z;
  }

  /**
   * Splitting `full_URL` at its colons gives back the scheme, `//` plus the
   * target, and the decimal port followed by the path, whenever neither the
   * target nor the path contains a colon.
   */
  lemma FullUrlFields(p: Probe)
    requires ':' !in TargetText(p.target) && ':' !in p.url
    ensures Split(FullUrl(p), ':') == [Scheme(p.ssl), "//" + TargetText(p.target), IntToString(p.port) + p.url]
  {
    var digits := IntToString(p.port);
    PortTextColonFree(p.port);
    SplitThreeFields(Scheme(p.ssl), "//" + TargetText(p.target), digits + p.url);
    Regroup(Scheme(p.ssl), TargetText(p.target), digits, p.url);
  }

  lemma PortTextColonFree(n: int)
    ensures ':' !in IntToString(n)
  {
    var digits := IntToString(n);
    assert forall i :: 0 <= i < |digits| ==> digits[i] != ':';
  }

  /** `full_URL`'s concatenation regrouped around its two colons. */
  lemma Regroup(scheme: string, host: string, digits: string, path: string)
    ensures scheme + "://" + host + ":" + digits + path == scheme + ":" + ("//" + host) + ":" + (digits + path)
  {
    assert "://" == ":" + "//";
  }

  /** Three colon-free fields joined by colons split back into themselves. */
  lemma SplitThreeFields(a: string, b: string, c: string)
    requires ':' !in a && ':' !in b && ':' !in c
    ensures Split(a + ":" + b + ":" + c, ':') == [a, b, c]
  {
    var parts := [a, b, c];
    assert Join(parts[2..], ':') == c;
    assert Join(parts[1..], ':') == b + [':'] + c;
    assert Join(parts, ':') == a + ":" + b + ":" + c;
    SplitJoin(parts, ':');
  }

  /** Whether `full_URL` uses TLS is readable off the URL itself. */
  lemma SameUrlSameScheme(a: Probe, b: Probe)
    requires FullUrl(a) == FullUrl(b)
    ensures (a.ssl == Some(true)) == (b.ssl == Some(true))
  {
  }
}

=== FILE: pytext.dfy ===
/**
 * The handful of Python string operations the fingerprinting code relies on:
 * the `in` substring test, `str.split`, `str(int)` and `int(str)`.
 */
module PyText {
  import opened Wrappers

  /** Python `needle in hay` on strings: `needle` occurs at some offset of `hay`. */
  predicate Contains(hay: string, needle: string) {
    exists i :: 0 <= i <= |hay| && needle <= hay[i..]
  }

  /** Python truthiness of a string fetched with `dict.get`: present and non-empty. */
  predicate Truthy(s: Option<string>) {
    s.Some? && s.value != ""
  }

  // ---------------------------------------------------------------------------
  // str.split(sep) and its inverse sep.join(parts)
  // ---------------------------------------------------------------------------

  /** `sep.join(parts)` for a single-character separator. */
  function Join(parts: seq<string>, sep: char): string
    requires |parts| >= 1
    decreases |parts|
  {
    if |parts| == 1 then parts[0] else parts[0] + [sep] + Join(parts[1..], sep)
  }

  /** `s.split(sep)`: the maximal separator-free fields of `s`, in order. */
  function Split(s: string, sep: char): (parts: seq<string>)
    ensures |parts| >= 1
    ensures forall i :: 0 <= i < |parts| ==> sep !in parts[i]
    ensures |parts| == 1 <==> sep !in s
    ensures Join(parts, sep) == s
    decreases |s|
  {
    if |s| == 0 then [""]
    else
      var rest := Split(s[1..], sep);
      if s[0] == sep then
        [""] + rest
      else
        assert Join([[s[0]] + rest[0]] + rest[1..], sep) == [s[0]] + Join(rest, sep);
        [[s[0]] + rest[0]] + rest[1..]
  }

  /** A separator-free string splits into itself. */
  lemma SplitNoSeparator(h: string, sep: char)
    requires sep !in h
    ensures Split(h, sep) == [h]
  {
    var parts := Split(h, sep);
    assert |parts| == 1;
    assert Join(parts, sep) == parts[0];
  }

  /** A leading separator-free field followed by the separator splits off as the first field. */
  lemma {:induction false} SplitFirstField(h: string, sep: char, rest: string)
    requires sep !in h
    ensures Split(h + [sep] + rest, sep) == [h] + Split(rest, sep)
    decreases |h|
  {
    var s := h + [sep] + rest;
    if |h| == 0 {
      assert s[0] == sep && s[1..] == rest;
    } else {
      assert s[0] == h[0] && s[1..] == h[1..] + [sep] + rest;
      SplitFirstField(h[1..], sep, rest);
      assert [h[0]] + h[1..] == h;
    }
  }

  /** Splitting undoes joining whenever no field contains the separator. */
  lemma {:induction false} SplitJoin(parts: seq<string>, sep: char)
    requires |parts| >= 1
    requires forall i :: 0 <= i < |parts| ==> sep !in parts[i]
    ensures Split(Join(parts, sep), sep) == parts
    decreases |parts|
  {
    if |parts| == 1 {
      SplitNoSeparator(parts[0], sep);
    } else {
      SplitJoin(parts[1..], sep);
      SplitFirstField(parts[0], sep, Join(parts[1..], sep));
      assert [parts[0]] + parts[1..] == parts;
    }
  }

  // ---------------------------------------------------------------------------
  // str(n) and int(s)
  // ---------------------------------------------------------------------------

  predicate IsDigit(c: char) {
    '0' <= c <= '9'
  }

  predicate AllDigits(s: string) {
    forall i :: 0 <= i < |s| ==> IsDigit(s[i])
  }

  function DigitChar(d: nat): (c: char)
    requires d < 10
    ensures IsDigit(c)
  {
    ('0' as int + d) as char
  }

  function DigitValue(c: char): (d: nat)
    requires IsDigit(c)
    ensures d < 10
  {
    c as int - '0' as int
  }

  /** A digit string without a leading zero, unless it is `"0"` itself. */
  predicate Canonical(s: string) {
    |s| > 1 ==> s[0] != '0'
  }

  /** The decimal digits of a natural number, most significant first. */
  function NatToString(n: nat): (s: string)
    ensures |s| >= 1 && AllDigits(s)
    ensures Canonical(s)
    decreases n
  {
    if n < 10 then [DigitChar(n)] else NatToString(n / 10) + [DigitChar(n % 10)]
  }

  /** Python `str(n)` for an int. */
  function IntToString(n: int): (s: string)
    ensures |s| >= 1
    ensures n >= 0 ==> AllDigits(s)
    ensures n < 0 ==> s[0] == '-' && AllDigits(s[1..])
    ensures n >= 0 ==> Canonical(s)
    ensures n < 0 ==> |s| >= 2 && s[1] != '0' && Canonical(s[1..])
  {
    if n < 0 then "-" + NatToString(-n) else NatToString(n)
  }

  /** The number a string of decimal digits denotes. */
  function DigitsValue(s: string): nat
    requires AllDigits(s)
    decreases |s|
  {
    if |s| == 0 then 0 else DigitsValue(s[..|s| - 1]) * 10 + DigitValue(s[|s| - 1])
  }

  /** The whitespace characters Python's `int()` ignores around an ASCII literal. */
  predicate IsSpace(c: char) {
    c == ' ' || c == '\t' || c == '\n' || c == '\r' || c as int == 11 || c as int == 12
  }

  /** `s.strip()` restricted to ASCII whitespace. */
  function StripSpace(s: string): (t: string)
    ensures |t| <= |s|
    ensures |s| > 0 && !IsSpace(s[0]) && !IsSpace(s[|s| - 1]) ==> t == s
    ensures |t| > 0 ==> !IsSpace(t[0]) && !IsSpace(t[|t| - 1])
    decreases |s|
  {
    if |s| > 0 && IsSpace(s[0]) then StripSpace(s[1..])
    else if |s| > 0 && IsSpace(s[|s| - 1]) then StripSpace(s[..|s| - 1])
    else s
  }

  /** Digits in which single underscores may separate two digits, as `int()` accepts. */
  predicate GroupedDigits(s: string)
    decreases |s|
  {
    |s| > 0 && IsDigit(s[0]) &&
    (|s| == 1 || (if s[1] == '_' then |s| > 2 && GroupedDigits(s[2..]) else GroupedDigits(s[1..])))
  }

  /** The digits of `s` with every underscore dropped. */
  function RemoveUnderscores(s: string): (r: string)
    ensures '_' !in s ==> r == s
    ensures (forall i :: 0 <= i < |s| ==> IsDigit(s[i]) || s[i] == '_') ==> AllDigits(r)
    decreases |s|
  {
    if |s| == 0 then ""
    else if s[0] == '_' then RemoveUnderscores(s[1..])
    else [s[0]] + RemoveUnderscores(s[1..])
  }

  lemma {:induction false} GroupedDigitsAlphabet(s: string)
    requires GroupedDigits(s)
    ensures forall i :: 0 <= i < |s| ==> IsDigit(s[i]) || s[i] == '_'
    decreases |s|
  {
    if |s| > 1 {
      if s[1] == '_' {
        GroupedDigitsAlphabet(s[2..]);
        assert forall i :: 2 <= i < |s| ==> s[i] == s[2..][i - 2];
      } else {
        GroupedDigitsAlphabet(s[1..]);
        assert forall i :: 1 <= i < |s| ==> s[i] == s[1..][i - 1];
      }
    }
  }

  lemma {:induction false} DigitsAreGrouped(s: string)
    requires |s| >= 1 && AllDigits(s)
    ensures GroupedDigits(s)
    decreases |s|
  {
    if |s| > 1 {
      DigitsAreGrouped(s[1..]);
    }
  }

  /** The value of an underscore-grouped decimal literal. */
  function GroupedValue(s: string): nat
    requires GroupedDigits(s)
  {
    GroupedDigitsAlphabet(s);
    DigitsValue(RemoveUnderscores(s))
  }

  /** Python `int(s)` on a string: `None` where `int()` raises ValueError. */
  function PyInt(s: string): Option<int>
  {
    var t := StripSpace(s);
    if |t| > 0 && (t[0] == '+' || t[0] == '-') then
      if GroupedDigits(t[1..]) then
        var v: int := GroupedValue(t[1..]);
        Some(if t[0] == '-' then -v else v)
      else None
    else if GroupedDigits(t) then Some(GroupedValue(t))
    else None
  }

  lemma {:induction false} DigitsValueOfNat(n: nat)
    ensures DigitsValue(NatToString(n)) == n
    decreases n
  {
    if n >= 10 {
      DigitsValueOfNat(n / 10);
      var s := NatToString(n);
      assert s[..|s| - 1] == NatToString(n / 10);
      assert DigitValue(DigitChar(n % 10)) == n % 10;
    } else {
      assert DigitValue(DigitChar(n)) == n;
    }
  }

  /** A non-empty digit string is at least its leading digit's value. */
  lemma {:induction false} DigitsValueAtLeastLead(s: string)
    requires |s| >= 1 && AllDigits(s)
    ensures DigitsValue(s) >= DigitValue(s[0])
    decreases |s|
  {
    if |s| > 1 {
      var init := s[..|s| - 1];
      assert init[0] == s[0];
      DigitsValueAtLeastLead(init);
    }
  }

  /**
   * `str()` of a natural number is the only canonical digit string with its
   * value: no other rendering (such as `"080"` for 80) is produced.
   */
  lemma {:induction false} CanonicalIsNatToString(s: string)
    requires |s| >= 1 && AllDigits(s) && Canonical(s)
    ensures NatToString(DigitsValue(s)) == s
    decreases |s|
  {
    if |s| == 1 {
      assert DigitChar(DigitValue(s[0])) == s[0];
    } else {
      var init := s[..|s| - 1];
      var last := s[|s| - 1];
      assert init[0] == s[0];
      assert Canonical(init);
      CanonicalIsNatToString(init);
      DigitsValueAtLeastLead(init);
      var v := DigitsValue(s);
      assert v / 10 == DigitsValue(init) && v % 10 == DigitValue(last);
      assert DigitChar(DigitValue(last)) == last;
      assert s == init + [last];
    }
  }

  /** An unsigned decimal rendering parses as the grouped literal it is. */
  lemma NatStringIsLiteral(m: nat)
    ensures GroupedDigits(NatToString(m))
    ensures GroupedValue(NatToString(m)) == m
  {
    var digits := NatToString(m);
    assert forall i :: 0 <= i < |digits| ==> digits[i] != '_';
    DigitsValueOfNat(m);
    DigitsAreGrouped(digits);
  }

  /** `int()` of a minus sign followed by grouped digits negates their value. */
  lemma {:induction false} PyIntOfMinus(digits: string)
    requires GroupedDigits(digits) && !IsSpace(digits[|digits| - 1])
    ensures PyInt("-" + digits) == Some(-(GroupedValue(digits) as int))
  {
    var s := "-" + digits;
    assert s[|s| - 1] == digits[|digits| - 1];
    assert StripSpace(s) == s;
    assert s[1..] == digits;
  }

  /** `int()` of a minus sign followed by digits is the negated digits' value. */
  lemma PyIntOfNegative(m: nat)
    requires m > 0
    ensures PyInt("-" + NatToString(m)) == Some(-(m as int))
  {
    var digits := NatToString(m);
    NatStringIsLiteral(m);
    assert IsDigit(digits[|digits| - 1]);
    PyIntOfMinus(digits);
  }

  /** `int()` of plain digits is their value. */
  lemma PyIntOfNatural(m: nat)
    ensures PyInt(NatToString(m)) == Some(m)
  {
    NatStringIsLiteral(m);
    var s := NatToString(m);
    assert StripSpace(s) == s;
  }

  /** `int(str(n)) == n`: the port rendered into a URL reads back as the same number. */
  lemma PyIntOfIntToString(n: int)
    ensures PyInt(IntToString(n)) == Some(n)
  {
    if n < 0 {
      PyIntOfNegative(-n);
    } else {
      PyIntOfNatural(n);
    }
  }
}

=== FILE: wrappers.dfy ===
/** `Option` and `Result`, shared by every module of the model. */
module Wrappers {

  /** Some value or nothing; also stands for Python's "value or False/None" returns. */
  datatype Option<+T> = None | Some(value: T) {

    /** Python's `d.get(key, default)` once the lookup is done: the value found, else `default`. */
    function GetOr(default: T): T
    {
      match this
      case Some(v) => v
      case None => default
    }
  }

  /** A value, or the exception that escaped the computation. */
  datatype Result<+R, +E> = Success(value: R) | Failure(error: E)
}

/** Generic facts about sequences that several modules rely on. */
module Seqs {
  import opened Wrappers

  /** The index of the first element satisfying `p`, if there is one. */
  function FirstWhere<T>(s: seq<T>, p: T -> bool): (k: Option<nat>)
    ensures k.Some? ==> k.value < |s| && p(s[k.value])
    ensures k.Some? ==> forall j :: 0 <= j < k.value ==> !p(s[j])
    ensures k.None? ==> forall j :: 0 <= j < |s| ==> !p(s[j])
    decreases |s|
  {
    if |s| == 0 then None
    else if p(s[0]) then Some(0)
    else
      match FirstWhere(s[1..], p)
      case None => None
      case Some(k) => Some(k + 1)
  }

  /** Shifting the window by one element shifts the first hit by one. */
  lemma FirstWhereTail<T>(s: seq<T>, p: T -> bool)
    requires |s| > 0 && !p(s[0])
    ensures FirstWhere(s, p) == (match FirstWhere(s[1..], p)
                                 case None => None
                                 case Some(k) => Some(k + 1))
  {
  }
}
